=== FILE: README.md ===
# Amazon order validation, modelled in Dafny

`validate_orders.py` reads a table of Amazon orders and checks every row
against the `AmazonOrder` schema: a non-empty `order_id`, a non-negative
integer `qty`, a non-negative number `amount`, the currency `INR`, the ship
country `IN`, and a `date` that `strptime(value, "%m-%d-%y")` accepts. Each row
goes, in table order, to one of two lists: a valid row is kept exactly as
read; an invalid row gets one extra column, `validation_errors`, holding
`"<n> error(s)"`, where n is the number of failing fields. Each list is then
written to its CSV file only when it is non-empty. When some row is invalid,
a Slack alert gives the total, valid and invalid counts, and the process
ends with exit code 1. Otherwise it ends with exit code 0.

The Dafny project has these modules:

- `Options` (options.dfy): the `Option` type.
- `Numerals` (numerals.dfy): `str(n)` for integers, and the text-to-integer
  and text-to-number conversions the schema applies to text cells.
- `Calendar` (calendar.dfy): `strptime` with the format `%m-%d-%y`, and its
  inverse `strftime`.
- `OrderSchema` (order_schema.dfy): cells, rows, the six field checks with
  their messages, and `Validate`, which collects every field's error in
  declaration order.
- `Partition` (partition.dfy): the row loop as a method, proved against the
  specification functions `ValidRows` and `InvalidRows`, and lemmas that the
  partition is complete, ordered and keeps rows unchanged.
- `Report` (report.dfy): the save, alert and exit decisions, and the whole
  run as a method.
- `Scenarios` (scenarios.dfy): worked examples, plus the empty and
  all-invalid tables.

A row is a `map<string, Cell>`. A cell is text, an integer or a number, as
the table reader hands it over. Numbers are exact `real`s.

What the code does in detail:

- An empty `order_id` is reported with the schema's `min_length` message,
  "String should have at least 1 character".
- The three custom validators raise `ValueError`. Their messages therefore
  carry the prefix "Value error, ".
- A currency, country or date cell that is not text fails the `str` type
  check ("Input should be a valid string"). The custom validator never runs
  on it.
- At most one error is reported per field. A cell that does not convert to
  the field's type stops that field before its constraint or validator runs.
- A one-digit month or day ("1-5-24"), and a day written as a space and a
  digit ("01- 5-24"), pass the date check, as `%m` and `%d` allow.

## Model

| member | source | states |
|---|---|---|
| Numerals.NatToDecimal | validate_orders.py:107 | `str(n)` of a non-negative count is a non-empty run of digits with no leading zero whose value is n |
| Numerals.IntToDecimal | validate_orders.py:16-20 | `str(n)` of any integer reads back as n |
| Numerals.ParseInteger | validate_orders.py:51 | text converts to an integer exactly when it is one or more digits after an optional sign; plain digits and '+' digits read as their value, '-' digits as its negation |
| Numerals.ParseUnsignedNumber | validate_orders.py:52 | decimal text converts exactly when it is one or more digits, then optionally '.' and one or more digits; it is never negative; all-digit text reads as its digit value |
| Numerals.UnsignedNumberValue | validate_orders.py:52 | accepted decimal text reads as all its digits, taken as one integer, over ten to the number of digits after the point |
| Numerals.ParseNumber | validate_orders.py:52 | a text number converts exactly when the text after an optional sign is unsigned decimal text, and reads as that text's value, negated under a leading '-'; integer text reads as the same number |
| Calendar.DaysInMonth | validate_orders.py:75 | month lengths are 28 to 31 days; 29 exactly for February of a leap year; 30 exactly for months 4, 6, 9 and 11; 31 exactly for months 1, 3, 5, 7, 8, 10 and 12 |
| Calendar.CenturyYear | validate_orders.py:75 | `%y` maps a two-digit year into 1969..2068, keeping its last two digits |
| Calendar.MonthField | validate_orders.py:75 | `%m` accepts only months 1..12, written as one digit or as two zero-padded digits of that month |
| Calendar.DayField | validate_orders.py:75 | `%d` accepts only days 1..31, written as one digit, a space and one digit, or two zero-padded digits of that day |
| Calendar.YearField | validate_orders.py:75 | what `%y` accepts is the two-digit writing of the year 0..99 it returns |
| Calendar.Assemble | validate_orders.py:74-77 | the matched fields give a date only when that day exists in that month of that year |
| Calendar.ParseDate | validate_orders.py:71-78 | every accepted text names a real calendar date in 1969..2068 |
| Calendar.AcceptedTextHasShape | validate_orders.py:71-78 | every accepted text is a month field, '-', a day field, '-' and a year field, each matching its directive, and names the date those fields give |
| Calendar.SplitAtSeparators | validate_orders.py:75 | a text of month, '-', day, '-', year is read field by field; the split at the separators is the only one possible |
| Calendar.TwoDigits | validate_orders.py:75 | the two-digit writing of 0..99 reads back as the number |
| Calendar.FormatDate | validate_orders.py:75 | the "MM-DD-YY" text has its separators at positions 2 and 5 |
| Calendar.FormattedDateAccepted | validate_orders.py:71-78 | a well-formed "MM-DD-YY" text passes exactly when it names a real calendar date, and then reads back as that date |
| Calendar.ParsedDateReformats | validate_orders.py:75 | re-writing an accepted date zero-padded gives a text that is accepted as the same date |
| Calendar.ShortFieldsAccepted | validate_orders.py:75 | one-digit months and days, and space-padded days, name the same date as the zero-padded form |
| Calendar.MonthPastDecemberRefused | validate_orders.py:74-77 | a month 13..99 is refused, whatever the day and year |
| Calendar.YearWidthRefused | validate_orders.py:74-77 | a year that is not exactly two characters is refused |
| Calendar.LeapDayAccepted | validate_orders.py:74-77 | February 29 passes exactly in the leap years |
| OrderSchema.OrderIdProblem | validate_orders.py:50 | `order_id` passes exactly when it is text of length at least 1; short text reports the min_length message |
| OrderSchema.QtyProblem | validate_orders.py:51 | `qty` passes exactly when it converts to an integer that is at least 0; a negative integer reports the ge=0 message |
| OrderSchema.AmountProblem | validate_orders.py:52 | `amount` passes exactly when it converts to a number that is at least 0; a negative number reports the ge=0 message |
| OrderSchema.CurrencyProblem | validate_orders.py:53-62 | `currency` passes exactly when it is the text "INR"; other text reports "Currency must be INR" |
| OrderSchema.CountryProblem | validate_orders.py:54-69 | `ship_country` passes exactly when it is the text "IN"; other text reports "Ship country must be IN" |
| OrderSchema.DateProblem | validate_orders.py:55-78 | `date` passes exactly when it is text that `strptime` accepts; other text reports "Date must be in format MM-DD-YY" |
| OrderSchema.CheckField | validate_orders.py:49-78 | a field reports an error exactly when its constraint is broken; the error names that field; a missing column reports "Field required" |
| OrderSchema.Validate | validate_orders.py:99-108 | an invalid verdict carries at least one error |
| OrderSchema.ErrorsNameFailingFields | validate_orders.py:101-107 | the errors name exactly the failing fields, in declaration order, so the error count is the number of failing fields |
| OrderSchema.ValidIffAllConstraintsHold | validate_orders.py:49-101 | a row is valid exactly when all six constraints hold |
| OrderSchema.BrokenConstraintReported | validate_orders.py:49-78 | a constraint is broken exactly when an error for that field is reported |
| Partition.ErrorTag | validate_orders.py:107 | the tag ends in " error(s)" and what precedes it reads back as the error count |
| Partition.Tagged | validate_orders.py:106-107 | an invalid row keeps every original column unchanged and gains exactly the `validation_errors` column holding its tag |
| Partition.InvalidRows | validate_orders.py:105-108 | the invalid list has one row per rejected row |
| Partition.PartitionRows | validate_orders.py:96-114 | the loop builds exactly the valid and invalid lists of the specification, and their sizes add up to the table's |
| Partition.ExtendByOne | validate_orders.py:99-108 | one more row is appended to the end of the list its verdict selects: unchanged when valid, tagged when invalid |
| Partition.PartitionSizes | validate_orders.py:120-122 | valid count plus invalid count equals the total row count |
| Partition.SelectedAtPositions | validate_orders.py:96-108 | the k-th selected row is the table row at the k-th selected position |
| Partition.PositionsAscend | validate_orders.py:96 | the selected positions lie inside the table and strictly ascend |
| Partition.PositionsExact | validate_orders.py:96-108 | the selected positions are exactly those of the rows with the matching verdict |
| Partition.ValidRowsStable | validate_orders.py:99-103 | the valid list is the accepted rows, unchanged, in table order |
| Partition.InvalidRowsStable | validate_orders.py:105-108 | the invalid list is the rejected rows, each tagged with its own count, in table order |
| Partition.NoInvalidRowsIffAllValid | validate_orders.py:137-161 | the invalid list is empty exactly when every row is valid |
| Partition.NoValidRowsIffAllInvalid | validate_orders.py:130 | the valid list is empty exactly when no row is valid |
| Report.SlackAlert | validate_orders.py:12-21 | the alert reports the given total and invalid counts, and their difference as the valid count |
| Report.AlertTextCounts | validate_orders.py:15-21 | the alert text opens with its title, holds a line for the total, valid and invalid counts, each ending where its number ends, and closes by pointing at `invalid_rows.csv` |
| Report.Run | validate_orders.py:96-166 | the run takes the specified decisions; its exit code is 1 exactly when some row is invalid |
| Report.OutcomeGates | validate_orders.py:130-166 | each file is written, holding its list, exactly when the list is non-empty; the alert is raised exactly when some row is invalid, with counts (total, valid, invalid); exit code 1 exactly then, 0 otherwise |
| Scenarios.WellFormedOrderPasses | validate_orders.py:49-78 | order A1 (qty 2, amount 100.0, INR, IN, "01-15-24") is valid; alone in a table it gives exit code 0 and no alert |
| Scenarios.TwoBrokenFieldsErrors | validate_orders.py:49-78 | order A2 (qty -1, currency USD) reports exactly the `qty` error and then the `currency` error |
| Scenarios.TwoBrokenFieldsCounted | validate_orders.py:105-107 | order A2 is invalid with two errors |
| Scenarios.TwoErrorsTag | validate_orders.py:107 | two errors are tagged "2 error(s)" |
| Scenarios.OneRejectedRowReported | validate_orders.py:130-161 | a table of one invalid row writes no valid file, writes that row tagged, alerts with counts 1, 0, 1 and exits with 1 |
| Scenarios.EmptyTableSucceeds | validate_orders.py:130-166 | an empty table writes no file, raises no alert and exits with 0 |
| Scenarios.AllRowsInvalid | validate_orders.py:130-161 | when every row is invalid, no valid file is written, the invalid file holds every row tagged in order, the alert counts no valid rows, and the exit code is 1 |

## Left out

- Reading `amazon_orders.csv` and writing `valid_rows.csv` and `invalid_rows.csv` are not modelled. The model keeps the rows each file would hold and whether it is written. The CSV text encoding and the column union pandas builds when rows have different keys are not modelled.
- The Slack delivery is not modelled: the `SLACK_WEBHOOK_URL` environment variable, the console fallback, the HTTP POST and its status handling. None of them affects the exit code. The model keeps whether the alert is raised and its three counts. `Report.AlertText` renders the message text; `Report.AlertTextCounts` states what it holds.
- The progress and summary printing, and the per-error lines at lines 110-114, are not modelled. `sys.exit` is modelled only as the exit code value.
- Cells that are NaN, booleans or other pandas types are not modelled. A missing column is modelled as an absent key, which gives "Field required". An empty CSV cell arrives as NaN, not as an absent key, so that case is not covered.
- Numerals.ParseNumber: the number conversion covers only an optional sign, digits, and an optional fraction. Whitespace, underscores, exponents, "inf", "nan", and forms such as ".5" and "5." are not modelled.
- Numerals.ParseInteger: the integer conversion covers only an optional sign and digits. Text such as "2.0", whitespace and underscores are not modelled. Integers are unbounded, so pandas' 64-bit limit is not modelled.
- OrderSchema.AmountProblem: `amount` is an exact real, so float rounding and the double-precision range are not modelled.
- Calendar.ParseDate: only ASCII digits are modelled, although `strptime`'s `\d` also matches other Unicode decimal digits.
- Determinism and idempotence hold because every member is a function of its inputs; no separate lemma states them.

=== FILE: calendar.dfy ===
/**
  The date check of the order schema: `strptime(value, "%m-%d-%y")`.
  The text must be month, '-', day, '-', two-digit year and nothing more,
  where the month is one or two digits naming 1 to 12, the day is one or two
  digits (or a space and one digit) naming 1 to 31, and the year is exactly
  two digits; 69 to 99 stand for 1969 to 1999 and 00 to 68 for 2000 to 2068.
  The result must then be a date that exists in the Gregorian calendar.
*/
module Calendar {
  import opened Options
  import opened Numerals

  datatype Date = Date(year: int, month: int, day: int)

  predicate IsLeapYear(year: int) {
    year % 4 == 0 && (year % 100 != 0 || year % 400 == 0)
  }

  function DaysInMonth(year: int, month: int): (n: nat)
    requires 1 <= month <= 12
    ensures 28 <= n <= 31
    ensures n == 29 <==> month == 2 && IsLeapYear(year)
    ensures n == 31 <==> month in {1, 3, 5, 7, 8, 10, 12}
    ensures n == 30 <==> month in {4, 6, 9, 11}
  {
    if month == 2 then (if IsLeapYear(year) then 29 else 28)
    else if month in {4, 6, 9, 11} then 30
    else 31
  }

  predicate IsCalendarDate(d: Date) {
    1 <= d.month <= 12 && 1 <= d.day <= DaysInMonth(d.year, d.month)
  }

  /** The century `%y` assigns to a two-digit year. */
  function CenturyYear(yy: nat): (year: int)
    requires yy < 100
    ensures 1969 <= year <= 2068
    ensures year % 100 == yy
  {
    if yy <= 68 then 2000 + yy else 1900 + yy
  }

  /** `%m`: "1" to "9", or "01" to "12". */
  function MonthField(t: string): (m: Option<nat>)
    ensures m.Some? ==> 1 <= m.value <= 12
    ensures m.Some? ==> (m.value < 10 && t == [DigitChar(m.value)]) || t == TwoDigits(m.value)
  {
    if |t| == 1 && IsDigit(t[0]) && DigitValue(t[0]) >= 1 then Some(DigitValue(t[0]))
    else if |t| == 2 && IsDigit(t[0]) && IsDigit(t[1]) && 1 <= 10 * DigitValue(t[0]) + DigitValue(t[1]) <= 12 then
      Some(10 * DigitValue(t[0]) + DigitValue(t[1]))
    else None
  }

  /** `%d`: "1" to "9", " 1" to " 9", or "01" to "31". */
  function DayField(t: string): (d: Option<nat>)
    ensures d.Some? ==> 1 <= d.value <= 31
    ensures d.Some? ==>
      (d.value < 10 && (t == [DigitChar(d.value)] || t == [' ', DigitChar(d.value)])) || t == TwoDigits(d.value)
  {
    if |t| == 1 && IsDigit(t[0]) && DigitValue(t[0]) >= 1 then Some(DigitValue(t[0]))
    else if |t| == 2 && t[0] == ' ' && IsDigit(t[1]) && DigitValue(t[1]) >= 1 then Some(DigitValue(t[1]))
    else if |t| == 2 && IsDigit(t[0]) && IsDigit(t[1]) && 1 <= 10 * DigitValue(t[0]) + DigitValue(t[1]) <= 31 then
      Some(10 * DigitValue(t[0]) + DigitValue(t[1]))
    else None
  }

  /** `%y`: exactly two digits. */
  function YearField(t: string): (y: Option<nat>)
    ensures y.Some? ==> y.value < 100
    ensures y.Some? ==> t == TwoDigits(y.value)
  {
    if |t| == 2 && IsDigit(t[0]) && IsDigit(t[1]) then Some(10 * DigitValue(t[0]) + DigitValue(t[1]))
    else None
  }

  /**
    The text split at its two separators: no field can hold a '-', and a
    month or day is one or two characters long, so the first separator is at
    index 1 or 2 and the second one or two characters after it.
  */
  function SeparatorAfter(s: string): (k: nat)
    ensures 1 <= k <= 2
  {
    if 2 <= |s| && s[1] == '-' then 1 else 2
  }

  /** The date named by the three fields, when each field matched and the day exists in that month. */
  function Assemble(month: Option<nat>, day: Option<nat>, yy: Option<nat>): (r: Option<Date>)
    requires month.Some? ==> 1 <= month.value <= 12
    requires yy.Some? ==> yy.value < 100
    ensures r.Some? ==> IsCalendarDate(r.value) && 1969 <= r.value.year <= 2068
  {
    match (month, day, yy)
    case (Some(m), Some(d), Some(y)) =>
      var year := CenturyYear(y);
      if 1 <= d <= DaysInMonth(year, m) then Some(Date(year, m, d)) else None
    case _ => None
  }

  /** `strptime(s, "%m-%d-%y")`: the date s names, or None where strptime raises ValueError. */
  function ParseDate(s: string): (r: Option<Date>)
    ensures r.Some? ==> IsCalendarDate(r.value) && 1969 <= r.value.year <= 2068
  {
    var i := SeparatorAfter(s);
    if |s| <= i || s[i] != '-' then None
    else
      var rest := s[i + 1..];
      var j := SeparatorAfter(rest);
      if |rest| <= j || rest[j] != '-' then None
      else Assemble(MonthField(s[..i]), DayField(rest[..j]), YearField(rest[j + 1..]))
  }

  /**
    A text made of a month part, '-', a day part, '-' and a year part, where
    the month and day parts are one or two characters without '-', is read
    field by field: the split at the separators is the only one possible.
  */
  lemma SplitAtSeparators(m: string, d: string, y: string)
    requires 1 <= |m| <= 2 && 1 <= |d| <= 2
    requires forall i :: 0 <= i < |m| ==> m[i] != '-'
    requires forall i :: 0 <= i < |d| ==> d[i] != '-'
    ensures ParseDate(m + "-" + d + "-" + y) == Assemble(MonthField(m), DayField(d), YearField(y))
  {
    var s := m + "-" + d + "-" + y;
    assert SeparatorAfter(s) == |m|;
    var rest := s[|m| + 1..];
    assert rest == d + "-" + y;
    assert SeparatorAfter(rest) == |d|;
    assert s[..|m|] == m && rest[..|d|] == d && rest[|d| + 1..] == y;
  }

  /**
    Every text the date check accepts has the `%m-%d-%y` shape: a month field,
    '-', a day field, '-' and a year field, each matching its directive, and
    it names the date those fields give.
  */
  lemma AcceptedTextHasShape(s: string)
    requires ParseDate(s).Some?
    ensures exists m, d, y ::
      (s == m + "-" + d + "-" + y
       && MonthField(m).Some? && DayField(d).Some? && YearField(y).Some?
       && ParseDate(s) == Assemble(MonthField(m), DayField(d), YearField(y)))
  {
    var i := SeparatorAfter(s);
    var rest := s[i + 1..];
    var j := SeparatorAfter(rest);
    assert rest == rest[..j] + "-" + rest[j + 1..];
    assert s == s[..i] + "-" + rest;
  }

  function TwoDigits(n: nat): (t: string)
    requires n < 100
    ensures |t| == 2 && AllDigits(t)
    ensures 10 * DigitValue(t[0]) + DigitValue(t[1]) == n
  {
    [DigitChar(n / 10), DigitChar(n % 10)]
  }

  /** `strftime("%m-%d-%y")`: the zero-padded "MM-DD-YY" writing of a date. */
  function FormatDate(d: Date): (s: string)
    requires 1 <= d.month <= 12 && 1 <= d.day <= 31
    ensures |s| == 8 && s[2] == '-' && s[5] == '-'
  {
    TwoDigits(d.month) + "-" + TwoDigits(d.day) + "-" + TwoDigits(d.year % 100)
  }

  /**
    A well-formed "MM-DD-YY" text within the century `%y` covers passes the
    date check exactly when it names a real calendar date, and then reads back
    as that date; a day past the end of its month is rejected.
  */
  lemma FormattedDateAccepted(d: Date)
    requires 1 <= d.month <= 12 && 1 <= d.day <= 31 && 1969 <= d.year <= 2068
    ensures ParseDate(FormatDate(d)).Some? <==> IsCalendarDate(d)
    ensures IsCalendarDate(d) ==> ParseDate(FormatDate(d)) == Some(d)
  {
    var m, dd, yy := TwoDigits(d.month), TwoDigits(d.day), TwoDigits(d.year % 100);
    SplitAtSeparators(m, dd, yy);
    assert MonthField(m) == Some(d.month);
    assert DayField(dd) == Some(d.day);
    assert YearField(yy) == Some(d.year % 100);
    assert CenturyYear(d.year % 100) == d.year;
  }

  /**
    Every date the check accepts is written by FormatDate as a text the check
    accepts as the same date: parsing normalises the lenient one-digit forms.
  */
  lemma ParsedDateReformats(s: string)
    requires ParseDate(s).Some?
    ensures ParseDate(FormatDate(ParseDate(s).value)) == ParseDate(s)
  {
    FormattedDateAccepted(ParseDate(s).value);
  }

  /**
    The lenient forms `%m` and `%d` admit: a one-digit month with a one-digit
    day, and a two-digit month with a space-padded day, name the same date as
    the zero-padded form.
  */
  lemma ShortFieldsAccepted(month: nat, day: nat, yy: nat)
    requires 1 <= month <= 9 && 1 <= day <= 9 && yy < 100
    ensures ParseDate([DigitChar(month)] + "-" + [DigitChar(day)] + "-" + TwoDigits(yy)) ==
      Some(Date(CenturyYear(yy), month, day))
    ensures ParseDate(TwoDigits(month) + "-" + [' ', DigitChar(day)] + "-" + TwoDigits(yy)) ==
      Some(Date(CenturyYear(yy), month, day))
  {
    var m, d, y := [DigitChar(month)], [DigitChar(day)], TwoDigits(yy);
    SplitAtSeparators(m, d, y);
    assert MonthField(m) == Some(month) && DayField(d) == Some(day) && YearField(y) == Some(yy);
    var m2, d2 := TwoDigits(month), [' ', DigitChar(day)];
    SplitAtSeparators(m2, d2, y);
    assert MonthField(m2) == Some(month) && DayField(d2) == Some(day);
  }

  /** A two-digit month past 12 is refused, whatever the day and year. */
  lemma MonthPastDecemberRefused(month: nat, day: string, year: string)
    requires 13 <= month <= 99 && 1 <= |day| <= 2
    requires forall i :: 0 <= i < |day| ==> day[i] != '-'
    ensures ParseDate(TwoDigits(month) + "-" + day + "-" + year).None?
  {
    SplitAtSeparators(TwoDigits(month), day, year);
  }

  /** `%y` takes exactly two digits: a year written with any other number of characters is refused. */
  lemma YearWidthRefused(month: string, day: string, year: string)
    requires 1 <= |month| <= 2 && 1 <= |day| <= 2 && |year| != 2
    requires forall i :: 0 <= i < |month| ==> month[i] != '-'
    requires forall i :: 0 <= i < |day| ==> day[i] != '-'
    ensures ParseDate(month + "-" + day + "-" + year).None?
  {
    SplitAtSeparators(month, day, year);
  }

  /** February 29 passes exactly in the leap years of the century `%y` covers. */
  lemma LeapDayAccepted(yy: nat)
    requires yy < 100
    ensures ParseDate(FormatDate(Date(CenturyYear(yy), 2, 29))).Some? <==> IsLeapYear(CenturyYear(yy))
  {
    FormattedDateAccepted(Date(CenturyYear(yy), 2, 29));
  }
}

=== FILE: numerals.dfy ===
/**
  Decimal text for integers and numbers: the rendering `str(n)` gives the
  error count written into an invalid row and the counts in the alert, and
  the lax text-to-number conversions the validator applies to a cell that
  arrives as text.
*/
module Numerals {
  import opened Options

  predicate IsDigit(c: char) {
    '0' <= c <= '9'
  }

  predicate AllDigits(s: string) {
    forall i :: 0 <= i < |s| ==> IsDigit(s[i])
  }

  function DigitValue(c: char): (v: nat)
    requires IsDigit(c)
    ensures v < 10
  {
    c as int - '0' as int
  }

  function DigitChar(v: nat): (c: char)
    requires v < 10
    ensures IsDigit(c) && DigitValue(c) == v
  {
    ('0' as int + v) as char
  }

  /** The value of a run of decimal digits, most significant digit first. */
  function DigitsValue(s: string): nat
    requires AllDigits(s)
  {
    if s == [] then 0 else 10 * DigitsValue(s[..|s| - 1]) + DigitValue(s[|s| - 1])
  }

  function Pow10(k: nat): (p: nat)
    ensures p >= 1
  {
    if k == 0 then 1 else 10 * Pow10(k - 1)
  }

  /**
    `str(n)` for a non-negative integer: the shortest run of digits whose
    value is n (no leading zero unless n is zero).
  */
  function NatToDecimal(n: nat): (s: string)
    ensures |s| >= 1 && AllDigits(s)
    ensures DigitsValue(s) == n
    ensures s[0] == '0' ==> n == 0
    ensures |s| > 1 ==> s[0] != '0'
  {
    if n < 10 then [DigitChar(n)]
    else
      var prefix := NatToDecimal(n / 10);
      var s := prefix + [DigitChar(n % 10)];
      assert s[..|s| - 1] == prefix;
      s
  }

  /** `str(n)` for any integer: a minus sign in front of a negative value. */
  function IntToDecimal(n: int): (s: string)
    ensures ParseInteger(s) == Some(n)
  {
    if n < 0 then "-" + NatToDecimal(-n) else NatToDecimal(n)
  }

  /**
    Text read as an integer: an optional sign followed by one or more ASCII
    digits; anything else does not convert.
  */
  function ParseInteger(s: string): (r: Option<int>)
    ensures |s| > 0 && AllDigits(s) ==> r == Some(DigitsValue(s))
    ensures r.Some? ==> |s| > 0 && (IsDigit(s[0]) || s[0] == '-' || s[0] == '+')
    ensures r.Some? ==> AllDigits(s[1..])
    ensures r.Some? && r.value < 0 ==> s[0] == '-'
    ensures r.Some? ==> |s| > 1 || IsDigit(s[0])
    ensures r.Some? && s[0] == '-' ==> r.value == -(DigitsValue(s[1..]) as int)
    ensures r.Some? && s[0] == '+' ==> r.value == DigitsValue(s[1..])
    ensures |s| > 1 && (s[0] == '-' || s[0] == '+') && AllDigits(s[1..]) ==> r.Some?
  {
    if |s| > 0 && (s[0] == '-' || s[0] == '+') then
      var body := s[1..];
      if |body| > 0 && AllDigits(body) then
        var magnitude: int := DigitsValue(body);
        Some(if s[0] == '-' then -magnitude else magnitude)
      else None
    else if |s| > 0 && AllDigits(s) then Some(DigitsValue(s))
    else None
  }

  /** The position of the first '.' in s, or |s| when there is none. */
  function DotIndex(s: string): (k: nat)
    ensures k <= |s|
    ensures forall i :: 0 <= i < k ==> s[i] != '.'
    ensures k < |s| ==> s[k] == '.'
  {
    if s == [] || s[0] == '.' then 0 else 1 + DotIndex(s[1..])
  }

  /** Digits written after digits: the front's value shifted by the back's length, plus the back's value. */
  lemma {:induction false} DigitsValueConcat(front: string, back: string)
    requires AllDigits(front) && AllDigits(back)
    ensures AllDigits(front + back)
    ensures DigitsValue(front + back) == DigitsValue(front) * Pow10(|back|) + DigitsValue(back)
  {
    var text := front + back;
    if back == [] {
      assert text == front;
    } else {
      var shorter := back[..|back| - 1];
      assert text[..|text| - 1] == front + shorter;
      DigitsValueConcat(front, shorter);
      assert back[..|back| - 1] == shorter;
      ShiftByOneDigit(DigitsValue(front), Pow10(|shorter|), DigitsValue(shorter), DigitValue(back[|back| - 1]));
    }
  }

  lemma ShiftByOneDigit(f: int, p: int, b: int, last: int)
    ensures 10 * (f * p + b) + last == f * (10 * p) + (10 * b + last)
  {
  }

  lemma ScaledValue(whole: nat, fraction: nat, scale: nat)
    requires scale >= 1
    ensures whole as real + fraction as real / scale as real == (whole * scale + fraction) as real / scale as real
  {
    assert (whole * scale) as real == whole as real * scale as real;
  }

  /** The digits in front of the first '.', or all of s when there is none. */
  function BeforeDot(s: string): string {
    s[..DotIndex(s)]
  }

  /** The digits after the first '.', or nothing when there is none. */
  function AfterDot(s: string): string {
    if DotIndex(s) < |s| then s[DotIndex(s) + 1..] else []
  }

  /** Unsigned decimal text: digits, optionally followed by '.' and more digits. */
  function ParseUnsignedNumber(s: string): (r: Option<real>)
    ensures r.Some? ==> r.value >= 0.0
    ensures |s| > 0 && AllDigits(s) ==> r == Some(DigitsValue(s) as real)
    ensures r.Some? ==> |BeforeDot(s)| > 0 && AllDigits(BeforeDot(s)) && AllDigits(AfterDot(s))
    ensures r.Some? && DotIndex(s) < |s| ==> |AfterDot(s)| > 0
    ensures (|BeforeDot(s)| > 0 && AllDigits(BeforeDot(s)) && AllDigits(AfterDot(s))
             && (DotIndex(s) < |s| ==> |AfterDot(s)| > 0)) ==> r.Some?
  {
    var k := DotIndex(s);
    var whole := BeforeDot(s);
    var fraction := AfterDot(s);
    if |whole| == 0 || !AllDigits(whole) then None
    else if k == |s| then
      assert whole == s;
      Some(DigitsValue(whole) as real)
    else if |fraction| == 0 || !AllDigits(fraction) then None
    else Some(DigitsValue(whole) as real + DigitsValue(fraction) as real / Pow10(|fraction|) as real)
  }

  /**
    Accepted unsigned decimal text reads as all its digits, taken as one
    integer, over ten to the number of digits after the point: "12.05" reads
    as 1205 / 100.
  */
  lemma UnsignedNumberValue(s: string)
    requires ParseUnsignedNumber(s).Some?
    ensures AllDigits(BeforeDot(s) + AfterDot(s))
    ensures ParseUnsignedNumber(s) ==
      Some(DigitsValue(BeforeDot(s) + AfterDot(s)) as real / Pow10(|AfterDot(s)|) as real)
  {
    var whole, fraction := BeforeDot(s), AfterDot(s);
    DigitsValueConcat(whole, fraction);
    if DotIndex(s) == |s| {
      assert fraction == [] && whole + fraction == whole;
      assert Pow10(|fraction|) == 1;
    } else {
      ScaledValue(DigitsValue(whole), DigitsValue(fraction), Pow10(|fraction|));
    }
  }

  /** The text after a leading sign, or all of s when it has none. */
  function AfterSign(s: string): string {
    if |s| > 0 && (s[0] == '-' || s[0] == '+') then s[1..] else s
  }

  /**
    Text read as a number: an optional sign in front of unsigned decimal
    text. Only a leading minus sign can make the value negative, and every
    text that reads as an integer reads as the same number.
  */
  function ParseNumber(s: string): (r: Option<real>)
    ensures r.Some? && r.value < 0.0 ==> |s| > 0 && s[0] == '-'
    ensures r.Some? && |s| > 0 && s[0] == '-' ==> r.value <= 0.0
    ensures r.Some? <==> ParseUnsignedNumber(AfterSign(s)).Some?
    ensures r.Some? ==>
      (r.value == (if |s| > 0 && s[0] == '-' then -1.0 else 1.0) * ParseUnsignedNumber(AfterSign(s)).value)
    ensures ParseInteger(s).Some? ==> r == Some(ParseInteger(s).value as real)
  {
    if |s| > 0 && s[0] == '-' then
      match ParseUnsignedNumber(s[1..])
      case Some(x) => Some(-x)
      case None => None
    else if |s| > 0 && s[0] == '+' then ParseUnsignedNumber(s[1..])
    else ParseUnsignedNumber(s)
  }
}

=== FILE: options.dfy ===
/** The optional value used wherever a conversion or a check may produce nothing. */
module Options {
  datatype Option<+T> = None | Some(value: T)
}

=== FILE: order_schema.dfy ===
/**
  The order schema: the six fields of an Amazon order row and the checks the
  schema runs on them. A row is validated field by field in declaration
  order; every field that fails contributes exactly one error (a value of
  the wrong type stops that field before its constraint or validator runs),
  and no failure stops the other fields from being checked.
*/
module OrderSchema {
  import opened Options
  import opened Numerals
  import Calendar

  /** A cell as the table reader hands it over: text, an integer or a floating-point number. */
  datatype Cell = Str(s: string) | Int(n: int) | Float(x: real)

  /** One row of the table: column name to cell. */
  type Row = map<string, Cell>

  /** The six fields of the schema. */
  datatype Field = OrderId | Qty | Amount | Currency | ShipCountry | DateField

  /** The column a field is read from, and the name its errors are reported under. */
  function Column(f: Field): string {
    match f
    case OrderId => "order_id"
    case Qty => "qty"
    case Amount => "amount"
    case Currency => "currency"
    case ShipCountry => "ship_country"
    case DateField => "date"
  }

  /** A field-level failure: the field and the reason reported for it. */
  datatype FieldError = FieldError(field: Field, message: string)

  datatype Verdict = Valid | Invalid(errors: seq<FieldError>)

  /** The fields in the order the schema declares, and so reports, them. */
  const FieldOrder: seq<Field> := [OrderId, Qty, Amount, Currency, ShipCountry, DateField]

  const RequiredCurrency := "INR"
  const RequiredCountry := "IN"

  const MissingMessage := "Field required"
  const StringTypeMessage := "Input should be a valid string"
  const TooShortMessage := "String should have at least 1 character"
  const IntParsingMessage := "Input should be a valid integer, unable to parse string as an integer"
  const IntFractionMessage := "Input should be a valid integer, got a number with a fractional part"
  const NumberParsingMessage := "Input should be a valid number, unable to parse string as a number"
  const NegativeMessage := "Input should be greater than or equal to 0"
  const CurrencyReason := "Currency must be INR"
  const CountryReason := "Ship country must be IN"
  const DateReason := "Date must be in format MM-DD-YY"

  /** The message reported for a ValueError raised by one of the schema's own validators. */
  function ValueErrorMessage(reason: string): string {
    "Value error, " + reason
  }

  /** Lax conversion to an integer: a float converts only when it has no fractional part. */
  function AsInt(c: Cell): Option<int> {
    match c
    case Int(n) => Some(n)
    case Float(x) => if x == x.Floor as real then Some(x.Floor) else None
    case Str(s) => ParseInteger(s)
  }

  /** Lax conversion to a number. */
  function AsNumber(c: Cell): Option<real> {
    match c
    case Int(n) => Some(n as real)
    case Float(x) => Some(x)
    case Str(s) => ParseNumber(s)
  }

  // The constraints of the schema, each stated on the row on its own terms.

  predicate OrderIdOk(row: Row) {
    "order_id" in row && row["order_id"].Str? && |row["order_id"].s| >= 1
  }

  predicate QtyOk(row: Row) {
    "qty" in row && AsInt(row["qty"]).Some? && AsInt(row["qty"]).value >= 0
  }

  predicate AmountOk(row: Row) {
    "amount" in row && AsNumber(row["amount"]).Some? && AsNumber(row["amount"]).value >= 0.0
  }

  predicate CurrencyOk(row: Row) {
    "currency" in row && row["currency"] == Str(RequiredCurrency)
  }

  predicate CountryOk(row: Row) {
    "ship_country" in row && row["ship_country"] == Str(RequiredCountry)
  }

  predicate DateOk(row: Row) {
    "date" in row && row["date"].Str? && Calendar.ParseDate(row["date"].s).Some?
  }

  predicate FieldOk(row: Row, field: Field) {
    match field
    case OrderId => OrderIdOk(row)
    case Qty => QtyOk(row)
    case Amount => AmountOk(row)
    case Currency => CurrencyOk(row)
    case ShipCountry => CountryOk(row)
    case DateField => DateOk(row)
  }

  // The checks of the schema, each giving the one message its field reports.

  /** `order_id: str = Field(min_length=1)` */
  function OrderIdProblem(c: Cell): (m: Option<string>)
    ensures m.None? <==> c.Str? && |c.s| >= 1
    ensures c.Str? && m.Some? ==> m == Some(TooShortMessage)
  {
    match c
    case Str(s) => if |s| >= 1 then None else Some(TooShortMessage)
    case _ => Some(StringTypeMessage)
  }

  /** `qty: int = Field(ge=0)` */
  function QtyProblem(c: Cell): (m: Option<string>)
    ensures m.None? <==> AsInt(c).Some? && AsInt(c).value >= 0
    ensures AsInt(c).Some? && m.Some? ==> m == Some(NegativeMessage)
  {
    match AsInt(c)
    case Some(n) => if n >= 0 then None else Some(NegativeMessage)
    case None => Some(if c.Float? then IntFractionMessage else IntParsingMessage)
  }

  /** `amount: float = Field(ge=0)` */
  function AmountProblem(c: Cell): (m: Option<string>)
    ensures m.None? <==> AsNumber(c).Some? && AsNumber(c).value >= 0.0
    ensures AsNumber(c).Some? && m.Some? ==> m == Some(NegativeMessage)
  {
    match AsNumber(c)
    case Some(x) => if x >= 0.0 then None else Some(NegativeMessage)
    case None => Some(NumberParsingMessage)
  }

  /** `currency: str` with `check_currency` */
  function CurrencyProblem(c: Cell): (m: Option<string>)
    ensures m.None? <==> c == Str(RequiredCurrency)
    ensures c.Str? && m.Some? ==> m == Some(ValueErrorMessage(CurrencyReason))
  {
    match c
    case Str(s) => if s != RequiredCurrency then Some(ValueErrorMessage(CurrencyReason)) else None
    case _ => Some(StringTypeMessage)
  }

  /** `ship_country: str` with `check_country` */
  function CountryProblem(c: Cell): (m: Option<string>)
    ensures m.None? <==> c == Str(RequiredCountry)
    ensures c.Str? && m.Some? ==> m == Some(ValueErrorMessage(CountryReason))
  {
    match c
    case Str(s) => if s != RequiredCountry then Some(ValueErrorMessage(CountryReason)) else None
    case _ => Some(StringTypeMessage)
  }

  /** `date: str` with `check_date_format` */
  function DateProblem(c: Cell): (m: Option<string>)
    ensures m.None? <==> c.Str? && Calendar.ParseDate(c.s).Some?
    ensures c.Str? && m.Some? ==> m == Some(ValueErrorMessage(DateReason))
  {
    match c
    case Str(s) => if Calendar.ParseDate(s).None? then Some(ValueErrorMessage(DateReason)) else None
    case _ => Some(StringTypeMessage)
  }

  /** The one error a field of the schema reports on this row, if any. */
  function CheckField(row: Row, field: Field): (e: Option<FieldError>)
    ensures e.None? <==> FieldOk(row, field)
    ensures e.Some? ==> e.value.field == field
    ensures Column(field) !in row ==> e == Some(FieldError(field, MissingMessage))
  {
    var column := Column(field);
    if column !in row then Some(FieldError(field, MissingMessage))
    else
      var c := row[column];
      var problem :=
        match field
        case OrderId => OrderIdProblem(c)
        case Qty => QtyProblem(c)
        case Amount => AmountProblem(c)
        case Currency => CurrencyProblem(c)
        case ShipCountry => CountryProblem(c)
        case DateField => DateProblem(c);
      match problem
      case None => None
      case Some(message) => Some(FieldError(field, message))
  }

  function AsList(e: Option<FieldError>): seq<FieldError> {
    match e
    case Some(error) => [error]
    case None => []
  }

  /** The errors of the given fields, in their order, with no short-circuit. */
  function CollectErrors(row: Row, fields: seq<Field>): seq<FieldError> {
    if fields == [] then [] else AsList(CheckField(row, fields[0])) + CollectErrors(row, fields[1..])
  }

  /** `AmazonOrder(**row)`: Valid, or Invalid with every field error in declaration order. */
  function Validate(row: Row): (v: Verdict)
    ensures v.Invalid? ==> |v.errors| >= 1
  {
    var errors := CollectErrors(row, FieldOrder);
    if errors == [] then Valid else Invalid(errors)
  }

  /** `error_count()` of the validation: zero for a valid row. */
  function ErrorCount(row: Row): nat {
    match Validate(row)
    case Valid => 0
    case Invalid(errors) => |errors|
  }

  function FieldsOf(errors: seq<FieldError>): seq<Field> {
    if errors == [] then [] else [errors[0].field] + FieldsOf(errors[1..])
  }

  /** The given fields whose constraint the row breaks, in their order. */
  function FailingAmong(row: Row, fields: seq<Field>): seq<Field> {
    if fields == [] then []
    else (if FieldOk(row, fields[0]) then [] else [fields[0]]) + FailingAmong(row, fields[1..])
  }

  /** The schema fields whose constraint the row breaks, in declaration order. */
  function FailingFields(row: Row): seq<Field> {
    FailingAmong(row, FieldOrder)
  }

  lemma {:induction false} CollectedErrorsName(row: Row, fields: seq<Field>)
    ensures FieldsOf(CollectErrors(row, fields)) == FailingAmong(row, fields)
  {
    if fields != [] {
      CollectedErrorsName(row, fields[1..]);
      FieldsOfConcat(AsList(CheckField(row, fields[0])), CollectErrors(row, fields[1..]));
    }
  }

  lemma {:induction false} FieldsOfConcat(a: seq<FieldError>, b: seq<FieldError>)
    ensures FieldsOf(a + b) == FieldsOf(a) + FieldsOf(b)
  {
    if a != [] {
      assert (a + b)[1..] == a[1..] + b;
      FieldsOfConcat(a[1..], b);
    } else {
      assert a + b == b;
    }
  }

  lemma {:induction false} FieldsOfLength(errors: seq<FieldError>)
    ensures |FieldsOf(errors)| == |errors|
    ensures forall i :: 0 <= i < |errors| ==> FieldsOf(errors)[i] == errors[i].field
  {
    if errors != [] {
      FieldsOfLength(errors[1..]);
    }
  }

  lemma {:induction false} FailingAmongMembers(row: Row, fields: seq<Field>, f: Field)
    ensures f in FailingAmong(row, fields) <==> f in fields && !FieldOk(row, f)
  {
    if fields != [] {
      FailingAmongMembers(row, fields[1..], f);
    }
  }

  /** The errors of a row are each field's own error, in declaration order. */
  lemma ErrorsFieldByField(row: Row)
    ensures CollectErrors(row, FieldOrder) ==
      AsList(CheckField(row, OrderId)) + AsList(CheckField(row, Qty)) + AsList(CheckField(row, Amount))
      + AsList(CheckField(row, Currency)) + AsList(CheckField(row, ShipCountry)) + AsList(CheckField(row, DateField))
  {
    var fields := FieldOrder;
    assert fields == [OrderId] + [Qty] + [Amount] + [Currency] + [ShipCountry] + [DateField];
    CollectSingle(row, OrderId);
    CollectSingle(row, Qty);
    CollectSingle(row, Amount);
    CollectSingle(row, Currency);
    CollectSingle(row, ShipCountry);
    CollectSingle(row, DateField);
    CollectAppend(row, [OrderId], [Qty]);
    CollectAppend(row, [OrderId] + [Qty], [Amount]);
    CollectAppend(row, [OrderId] + [Qty] + [Amount], [Currency]);
    CollectAppend(row, [OrderId] + [Qty] + [Amount] + [Currency], [ShipCountry]);
    CollectAppend(row, [OrderId] + [Qty] + [Amount] + [Currency] + [ShipCountry], [DateField]);
  }

  lemma CollectSingle(row: Row, field: Field)
    ensures CollectErrors(row, [field]) == AsList(CheckField(row, field))
  {
    assert [field][1..] == [];
  }

  lemma {:induction false} CollectAppend(row: Row, a: seq<Field>, b: seq<Field>)
    ensures CollectErrors(row, a + b) == CollectErrors(row, a) + CollectErrors(row, b)
  {
    if a == [] {
      assert a + b == b;
    } else {
      assert (a + b)[1..] == a[1..] + b;
      CollectAppend(row, a[1..], b);
    }
  }

  /**
    The errors of a rejected row name exactly the fields whose constraint it
    breaks, one error per field, in declaration order; so the error count is
    the number of failing fields.
  */
  lemma ErrorsNameFailingFields(row: Row)
    ensures Validate(row).Invalid? ==> FieldsOf(Validate(row).errors) == FailingFields(row)
    ensures ErrorCount(row) == |FailingFields(row)|
  {
    CollectedErrorsName(row, FieldOrder);
    FieldsOfLength(CollectErrors(row, FieldOrder));
  }

  /** A row is valid exactly when all six constraints of the schema hold at once. */
  lemma ValidIffAllConstraintsHold(row: Row)
    ensures Validate(row).Valid? <==>
      OrderIdOk(row) && QtyOk(row) && AmountOk(row) && CurrencyOk(row) && CountryOk(row) && DateOk(row)
  {
    ErrorsNameFailingFields(row);
    forall f | f in FieldOrder ensures f in FailingFields(row) <==> !FieldOk(row, f) {
      FailingAmongMembers(row, FieldOrder, f);
    }
    assert FieldOk(row, OrderId) == OrderIdOk(row);
    assert FieldOk(row, Qty) == QtyOk(row);
    assert FieldOk(row, Amount) == AmountOk(row);
    assert FieldOk(row, Currency) == CurrencyOk(row);
    assert FieldOk(row, ShipCountry) == CountryOk(row);
    assert FieldOk(row, DateField) == DateOk(row);
    if Validate(row).Invalid? {
      var errors := Validate(row).errors;
      FieldsOfLength(errors);
      assert errors[0].field in FailingFields(row);
      FailingAmongMembers(row, FieldOrder, errors[0].field);
    } else {
      assert FailingFields(row) == [];
    }
  }

  /**
    A field's constraint is broken exactly when the validation reports an
    error for that field.
  */
  lemma BrokenConstraintReported(row: Row, field: Field)
    ensures !FieldOk(row, field) <==>
      Validate(row).Invalid? && exists e :: e in Validate(row).errors && e.field == field
  {
    ErrorsNameFailingFields(row);
    FailingAmongMembers(row, FieldOrder, field);
    var errors := CollectErrors(row, FieldOrder);
    FieldsOfLength(errors);
    if !FieldOk(row, field) {
      assert field in FieldsOf(errors);
      var i :| 0 <= i < |errors| && FieldsOf(errors)[i] == field;
      assert errors[i] in errors;
    } else if Validate(row).Invalid? {
      forall e | e in errors ensures e.field != field {
        var i :| 0 <= i < |errors| && errors[i] == e;
        assert FieldsOf(errors)[i] in FailingFields(row);
      }
    }
  }
}

=== FILE: partition.dfy ===
/**
  The row loop: every row of the table is validated in turn; a valid row is
  kept exactly as read, an invalid row gets one extra column holding its
  error count, and each goes to the end of its own list.
*/
module Partition {
  import opened Options
  import opened Numerals
  import opened OrderSchema

  const ErrorsColumn := "validation_errors"
  const ErrorSuffix := " error(s)"

  predicate Accepts(row: Row) {
    Validate(row).Valid?
  }

  /** `str(n) + " error(s)"`: the text ends in the suffix and what precedes it reads back as n. */
  function ErrorTag(n: nat): (tag: string)
    ensures |tag| > |ErrorSuffix| && tag[|tag| - |ErrorSuffix|..] == ErrorSuffix
    ensures ParseInteger(tag[..|tag| - |ErrorSuffix|]) == Some(n)
  {
    var digits := IntToDecimal(n);
    var tag := digits + ErrorSuffix;
    assert tag[..|digits|] == digits;
    tag
  }

  /**
    An invalid row as written out: its own columns unchanged plus the one
    column holding its error tag.
  */
  function Tagged(row: Row, errorCount: nat): (out: Row)
    ensures out.Keys == row.Keys + {ErrorsColumn}
    ensures forall k :: k in row && k != ErrorsColumn ==> out[k] == row[k]
    ensures out[ErrorsColumn] == Str(ErrorTag(errorCount))
  {
    row[ErrorsColumn := Str(ErrorTag(errorCount))]
  }

  /** A rejected row as the loop appends it: tagged with its own error count. */
  function Marked(row: Row): Row {
    Tagged(row, ErrorCount(row))
  }

  /** The rows the validation accepts (keep) or rejects (!keep), as read, in table order. */
  function Selected(table: seq<Row>, keep: bool): seq<Row> {
    if table == [] then []
    else
      var last := table[|table| - 1];
      Selected(table[..|table| - 1], keep) + (if Accepts(last) == keep then [last] else [])
  }

  /** The rows the loop appends to `valid_rows`, in table order. */
  function ValidRows(table: seq<Row>): seq<Row> {
    Selected(table, true)
  }

  /** The rows the validation rejects, as read, in table order. */
  function RejectedRows(table: seq<Row>): seq<Row> {
    Selected(table, false)
  }

  /** The rows the loop appends to `invalid_rows`: the rejected rows, each tagged, in table order. */
  function InvalidRows(table: seq<Row>): (rows: seq<Row>)
    ensures |rows| == |RejectedRows(table)|
  {
    var rejected := RejectedRows(table);
    seq(|rejected|, k requires 0 <= k < |rejected| => Marked(rejected[k]))
  }

  /** The positions of the rows the validation accepts (keep) or rejects (!keep), ascending. */
  function Positions(table: seq<Row>, keep: bool): seq<nat> {
    if table == [] then []
    else
      var n := |table| - 1;
      Positions(table[..n], keep) + (if Accepts(table[n]) == keep then [n] else [])
  }

  /** Walks the rows in order and appends each to the list its validation selects. */
  method PartitionRows(table: seq<Row>) returns (validRows: seq<Row>, invalidRows: seq<Row>)
    ensures validRows == ValidRows(table) && invalidRows == InvalidRows(table)
    ensures |validRows| + |invalidRows| == |table|
  {
    validRows, invalidRows := [], [];
    for i := 0 to |table|
      invariant validRows == ValidRows(table[..i])
      invariant invalidRows == InvalidRows(table[..i])
    {
      var row := table[i];
      ExtendByOne(table, i);
      match Validate(row) {
        case Valid =>
          validRows := validRows + [row];
        case Invalid(errors) =>
          assert Tagged(row, |errors|) == Marked(row);
          invalidRows := invalidRows + [Tagged(row, |errors|)];
      }
    }
    assert table[..|table|] == table;
    PartitionSizes(table);
  }

  /** Taking one more row of the table adds that row to the end of the list its verdict selects. */
  lemma ExtendByOne(table: seq<Row>, i: nat)
    requires i < |table|
    ensures ValidRows(table[..i + 1]) == ValidRows(table[..i]) + (if Accepts(table[i]) then [table[i]] else [])
    ensures InvalidRows(table[..i + 1]) == InvalidRows(table[..i]) + (if Accepts(table[i]) then [] else [Marked(table[i])])
  {
    assert table[..i + 1][..i] == table[..i];
    var before, after := RejectedRows(table[..i]), RejectedRows(table[..i + 1]);
    assert after == before + (if Accepts(table[i]) then [] else [table[i]]);
  }

  /** Every row lands in exactly one of the two lists: the sizes add up to the table's. */
  lemma {:induction false} PartitionSizes(table: seq<Row>)
    ensures |ValidRows(table)| + |InvalidRows(table)| == |table|
  {
    if table != [] {
      PartitionSizes(table[..|table| - 1]);
    }
  }

  /** The k-th selected row is the row at the k-th selected position. */
  lemma {:induction false} SelectedAtPositions(table: seq<Row>, keep: bool)
    ensures var p := Positions(table, keep);
      && |Selected(table, keep)| == |p|
      && forall k :: 0 <= k < |p| ==> p[k] < |table| && Selected(table, keep)[k] == table[p[k]]
  {
    if table != [] {
      var n := |table| - 1;
      var front := table[..n];
      SelectedAtPositions(front, keep);
      var pf, rf := Positions(front, keep), Selected(front, keep);
      var p, r := Positions(table, keep), Selected(table, keep);
      var chosen := Accepts(table[n]) == keep;
      assert p == pf + (if chosen then [n] else []);
      assert r == rf + (if chosen then [table[n]] else []);
      forall k | 0 <= k < |p| ensures p[k] < |table| && r[k] == table[p[k]] {
        if k < |pf| {
          assert p[k] == pf[k] && r[k] == rf[k] && front[pf[k]] == table[pf[k]];
        }
      }
    }
  }

  /** The selected positions lie within the table and ascend strictly. */
  lemma {:induction false} PositionsAscend(table: seq<Row>, keep: bool)
    ensures forall k :: 0 <= k < |Positions(table, keep)| ==> Positions(table, keep)[k] < |table|
    ensures forall j, k :: 0 <= j < k < |Positions(table, keep)| ==> Positions(table, keep)[j] < Positions(table, keep)[k]
  {
    if table != [] {
      var n := |table| - 1;
      var front := table[..n];
      PositionsAscend(front, keep);
      var pf := Positions(front, keep);
      var p := Positions(table, keep);
      assert p == pf + (if Accepts(table[n]) == keep then [n] else []);
      forall k | 0 <= k < |p| ensures p[k] <= n && (k < |pf| ==> p[k] == pf[k] < n) { }
      forall j, k | 0 <= j < k < |p| ensures p[j] < p[k] {
        assert p[j] == pf[j];
      }
    }
  }

  /** The selected positions are exactly those of the rows whose verdict matches keep. */
  lemma {:induction false} PositionsExact(table: seq<Row>, keep: bool)
    ensures forall i :: i in Positions(table, keep) <==> 0 <= i < |table| && Accepts(table[i]) == keep
  {
    if table != [] {
      var n := |table| - 1;
      var front := table[..n];
      PositionsExact(front, keep);
      var extra := if Accepts(table[n]) == keep then [n] else [];
      assert Positions(table, keep) == Positions(front, keep) + extra;
      forall i | 0 <= i < n ensures front[i] == table[i] { }
    }
  }

  /**
    The valid list is the table's accepted rows, unchanged and in table
    order: its k-th row is the row at the k-th ascending position of an
    accepted row, and those positions are exactly the accepted ones.
  */
  lemma ValidRowsStable(table: seq<Row>)
    ensures var p := Positions(table, true);
      && |ValidRows(table)| == |p|
      && (forall k :: 0 <= k < |p| ==> p[k] < |table| && ValidRows(table)[k] == table[p[k]])
      && (forall j, k :: 0 <= j < k < |p| ==> p[j] < p[k])
      && (forall i :: i in p <==> 0 <= i < |table| && Accepts(table[i]))
  {
    SelectedAtPositions(table, true);
    PositionsAscend(table, true);
    PositionsExact(table, true);
  }

  /**
    The invalid list is the table's rejected rows, in table order, each
    tagged with its own error count.
  */
  lemma InvalidRowsStable(table: seq<Row>)
    ensures var p := Positions(table, false);
      && |InvalidRows(table)| == |p|
      && (forall k :: 0 <= k < |p| ==> p[k] < |table| && InvalidRows(table)[k] == Marked(table[p[k]]))
      && (forall j, k :: 0 <= j < k < |p| ==> p[j] < p[k])
      && (forall i :: i in p <==> 0 <= i < |table| && !Accepts(table[i]))
  {
    SelectedAtPositions(table, false);
    PositionsAscend(table, false);
    PositionsExact(table, false);
  }

  /** The invalid list is empty exactly when every row of the table is valid. */
  lemma NoInvalidRowsIffAllValid(table: seq<Row>)
    ensures InvalidRows(table) == [] <==> forall i :: 0 <= i < |table| ==> Accepts(table[i])
  {
    InvalidRowsStable(table);
    var p := Positions(table, false);
    if InvalidRows(table) != [] {
      assert p[0] in p;
    }
  }

  /** The valid list is empty exactly when no row of the table is valid. */
  lemma NoValidRowsIffAllInvalid(table: seq<Row>)
    ensures ValidRows(table) == [] <==> forall i :: 0 <= i < |table| ==> !Accepts(table[i])
  {
    ValidRowsStable(table);
    var p := Positions(table, true);
    if ValidRows(table) != [] {
      assert p[0] in p;
    }
  }
}

=== FILE: report.dfy ===
/**
  What the run does once every row is classified: write each list to its
  file only when it is non-empty, raise the alert only when some row is
  invalid, and end with exit code 1 when some row is invalid and 0 otherwise.
  Writing files and posting the alert are outside the model; what is kept is
  what would be written, whether the alert is raised, and its counts.
*/
module Report {
  import opened Options
  import opened Numerals
  import opened OrderSchema
  import opened Partition

  /** The figures of the alert message. */
  datatype Alert = Alert(totalRows: int, validRows: int, invalidRows: int)

  /** The decisions of one run. */
  datatype RunOutcome = RunOutcome(
    validFile: Option<seq<Row>>,    // rows written to valid_rows.csv, when it is written
    invalidFile: Option<seq<Row>>,  // rows written to invalid_rows.csv, when it is written
    alert: Option<Alert>,           // the alert, when it is raised
    exitCode: int)

  /**
    `send_slack_notification(invalid_count, total_count)`: the alert reports
    the total and invalid counts it is given and, as the valid count, their
    difference.
  */
  function SlackAlert(invalidCount: int, totalCount: int): (a: Alert)
    ensures a.totalRows == totalCount && a.invalidRows == invalidCount
    ensures a.validRows + a.invalidRows == a.totalRows
  {
    Alert(totalCount, totalCount - invalidCount, invalidCount)
  }

  const AlertTitle := "⚠️ *Amazon Orders Validation Alert*\n\n"
  const AlertFooter := "❌ Please check `invalid_rows.csv` for details."

  /** The text of the alert message. */
  function AlertText(a: Alert): string {
    AlertTitle
    + ("• Total rows: " + IntToDecimal(a.totalRows) + "\n")
    + ("• Valid rows: " + IntToDecimal(a.validRows) + "\n")
    + ("• Invalid rows: " + IntToDecimal(a.invalidRows) + "\n\n")
    + AlertFooter
  }

  predicate OccursAt(text: string, part: string, i: int) {
    0 <= i <= |text| - |part| && text[i..i + |part|] == part
  }

  predicate Contains(text: string, part: string) {
    exists i :: 0 <= i <= |text| && OccursAt(text, part, i)
  }

  /** Each middle part of a five-part text occurs in it; the first part starts it and the last ends it. */
  lemma FiveParts(a: string, b: string, c: string, d: string, e: string)
    ensures Contains(a + b + c + d + e, b) && Contains(a + b + c + d + e, c) && Contains(a + b + c + d + e, d)
    ensures (a + b + c + d + e)[..|a|] == a && (a + b + c + d + e)[|a + b + c + d|..] == e
  {
    var text := a + b + c + d + e;
    assert text[|a|..|a| + |b|] == b && OccursAt(text, b, |a|);
    assert text[|a + b|..|a + b| + |c|] == c && OccursAt(text, c, |a + b|);
    assert text[|a + b + c|..|a + b + c| + |d|] == d && OccursAt(text, d, |a + b + c|);
  }

  /**
    The alert message carries one line per count, each ending where the
    number ends, so each count reads back: the total and invalid counts it
    was given, and their difference as the valid count. It opens with the
    title and closes by pointing at the invalid rows file.
  */
  lemma AlertTextCounts(invalidCount: int, totalCount: int)
    ensures Contains(AlertText(SlackAlert(invalidCount, totalCount)),
      "• Total rows: " + IntToDecimal(totalCount) + "\n")
    ensures Contains(AlertText(SlackAlert(invalidCount, totalCount)),
      "• Valid rows: " + IntToDecimal(totalCount - invalidCount) + "\n")
    ensures Contains(AlertText(SlackAlert(invalidCount, totalCount)),
      "• Invalid rows: " + IntToDecimal(invalidCount) + "\n\n")
    ensures AlertText(SlackAlert(invalidCount, totalCount))[..|AlertTitle|] == AlertTitle
    ensures AlertText(SlackAlert(invalidCount, totalCount))[|AlertText(SlackAlert(invalidCount, totalCount))| - |AlertFooter|..] == AlertFooter
  {
    var a := SlackAlert(invalidCount, totalCount);
    FiveParts(AlertTitle,
      "• Total rows: " + IntToDecimal(a.totalRows) + "\n",
      "• Valid rows: " + IntToDecimal(a.validRows) + "\n",
      "• Invalid rows: " + IntToDecimal(a.invalidRows) + "\n\n",
      AlertFooter);
  }

  /** The save, notify and exit decisions taken on the two lists. */
  function Conclude(totalCount: nat, validRows: seq<Row>, invalidRows: seq<Row>): RunOutcome {
    RunOutcome(
      if |validRows| > 0 then Some(validRows) else None,
      if |invalidRows| > 0 then Some(invalidRows) else None,
      if |invalidRows| > 0 then Some(SlackAlert(|invalidRows|, totalCount)) else None,
      if |invalidRows| > 0 then 1 else 0)
  }

  /** The decisions a run takes on a table. */
  function Outcome(table: seq<Row>): RunOutcome {
    Conclude(|table|, ValidRows(table), InvalidRows(table))
  }

  /** The whole run on a loaded table: classify every row, then save, notify and exit. */
  method Run(table: seq<Row>) returns (outcome: RunOutcome)
    ensures outcome == Outcome(table)
    ensures outcome.exitCode == (if exists i :: 0 <= i < |table| && !Accepts(table[i]) then 1 else 0)
  {
    var validRows, invalidRows := PartitionRows(table);
    outcome := Conclude(|table|, validRows, invalidRows);
    NoInvalidRowsIffAllValid(table);
  }

  /**
    The run's decisions on any table: the valid file is written, holding the
    valid list, exactly when some row is valid; the invalid file is written,
    holding the invalid list, and the alert raised exactly when some row is
    invalid; the alert's valid count is the number of valid rows; and the
    exit code is 1 exactly when some row is invalid, 0 otherwise.
  */
  lemma OutcomeGates(table: seq<Row>)
    ensures Outcome(table).validFile.Some? <==> exists i :: 0 <= i < |table| && Accepts(table[i])
    ensures Outcome(table).validFile.Some? ==> Outcome(table).validFile.value == ValidRows(table)
    ensures Outcome(table).invalidFile.Some? <==> exists i :: 0 <= i < |table| && !Accepts(table[i])
    ensures Outcome(table).invalidFile.Some? ==> Outcome(table).invalidFile.value == InvalidRows(table)
    ensures Outcome(table).alert.Some? <==> Outcome(table).invalidFile.Some?
    ensures Outcome(table).alert.Some? ==>
      Outcome(table).alert.value == Alert(|table|, |ValidRows(table)|, |InvalidRows(table)|)
    ensures Outcome(table).exitCode == 1 <==> Outcome(table).invalidFile.Some?
    ensures Outcome(table).exitCode == 0 <==> Outcome(table).invalidFile.None?
  {
    NoInvalidRowsIffAllValid(table);
    NoValidRowsIffAllInvalid(table);
    PartitionSizes(table);
  }
}

=== FILE: scenarios.dfy ===
/** Worked examples of the validation rules and of whole runs. */
module Scenarios {
  import opened Options
  import opened OrderSchema
  import opened Partition
  import opened Report
  import opened Numerals
  import Calendar

  function OrderRow(id: Cell, qty: Cell, amount: Cell, currency: Cell, country: Cell, date: Cell): Row {
    map["order_id" := id, "qty" := qty, "amount" := amount, "currency" := currency, "ship_country" := country, "date" := date]
  }

  lemma RowFields(id: Cell, qty: Cell, amount: Cell, currency: Cell, country: Cell, date: Cell)
    ensures var row := OrderRow(id, qty, amount, currency, country, date);
      && "order_id" in row && row["order_id"] == id && "qty" in row && row["qty"] == qty
      && "amount" in row && row["amount"] == amount && "currency" in row && row["currency"] == currency
      && "ship_country" in row && row["ship_country"] == country && "date" in row && row["date"] == date
  {
  }

  /** The date of both example orders. */
  lemma ExampleDate()
    ensures Calendar.ParseDate("01-15-24") == Some(Calendar.Date(2024, 1, 15))
  {
    Calendar.SplitAtSeparators("01", "15", "24");
    assert Calendar.MonthField("01") == Some(1) && Calendar.DayField("15") == Some(15);
    assert Calendar.YearField("24") == Some(24);
  }

  /** A complete, well-formed order is valid, and a table holding only it ends with exit code 0. */
  lemma WellFormedOrderPasses()
    ensures var row := OrderRow(Str("A1"), Int(2), Float(100.0), Str("INR"), Str("IN"), Str("01-15-24"));
      Validate(row) == Valid && Outcome([row]).exitCode == 0 && Outcome([row]).alert.None?
  {
    var row := OrderRow(Str("A1"), Int(2), Float(100.0), Str("INR"), Str("IN"), Str("01-15-24"));
    RowFields(Str("A1"), Int(2), Float(100.0), Str("INR"), Str("IN"), Str("01-15-24"));
    ExampleDate();
    assert OrderIdOk(row) && QtyOk(row) && AmountOk(row) && CurrencyOk(row) && CountryOk(row) && DateOk(row);
    ValidIffAllConstraintsHold(row);
    OutcomeGates([row]);
  }

  /** The second example order: a negative quantity and a foreign currency. */
  function RejectedExample(): Row {
    OrderRow(Str("A2"), Int(-1), Float(50.0), Str("USD"), Str("IN"), Str("01-15-24"))
  }

  /** Both broken fields are reported, in field order, and no other. */
  lemma TwoBrokenFieldsErrors()
    ensures Validate(RejectedExample()) == Invalid([
      FieldError(Qty, NegativeMessage),
      FieldError(Currency, ValueErrorMessage(CurrencyReason))])
  {
    var row := RejectedExample();
    ErrorsFieldByField(row);
    RejectedExampleField(OrderId);
    RejectedExampleField(Qty);
    RejectedExampleField(Amount);
    RejectedExampleField(Currency);
    RejectedExampleField(ShipCountry);
    RejectedExampleField(DateField);
  }

  /** Each field of the rejected example: only the quantity and the currency fail. */
  lemma RejectedExampleField(f: Field)
    ensures CheckField(RejectedExample(), f) ==
      match f
      case Qty => Some(FieldError(Qty, NegativeMessage))
      case Currency => Some(FieldError(Currency, ValueErrorMessage(CurrencyReason)))
      case _ => None
  {
    RowFields(Str("A2"), Int(-1), Float(50.0), Str("USD"), Str("IN"), Str("01-15-24"));
    if f == DateField {
      ExampleDate();
    }
  }

  /** The rejected example counts two errors, so its tag reads back as 2. */
  lemma TwoBrokenFieldsCounted()
    ensures ErrorCount(RejectedExample()) == 2
    ensures !Accepts(RejectedExample())
  {
    TwoBrokenFieldsErrors();
  }

  /** A row with two errors is tagged "2 error(s)". */
  lemma TwoErrorsTag()
    ensures ErrorTag(2) == "2 error(s)"
  {
    assert IntToDecimal(2) == [DigitChar(2)];
  }

  /**
    A table holding one rejected row writes no valid file, writes that row
    tagged, raises the alert for one row out of one and ends with exit code 1.
  */
  lemma OneRejectedRowReported(row: Row)
    requires !Accepts(row)
    ensures Outcome([row]) == RunOutcome(None, Some([Marked(row)]), Some(Alert(1, 0, 1)), 1)
  {
    var table := [row];
    assert !Accepts(table[0]);
    AllRowsInvalid(table);
    assert seq(|table|, i requires 0 <= i < |table| => Marked(table[i])) == [Marked(row)];
  }

  /** A table with no rows writes no file, raises no alert and ends with exit code 0. */
  lemma EmptyTableSucceeds()
    ensures Outcome([]) == RunOutcome(None, None, None, 0)
  {
  }

  /**
    When every row is invalid, no valid file is written, the invalid file
    holds every row tagged, the alert is raised and the exit code is 1.
  */
  lemma AllRowsInvalid(table: seq<Row>)
    requires |table| > 0
    requires forall i :: 0 <= i < |table| ==> !Accepts(table[i])
    ensures Outcome(table).validFile.None?
    ensures Outcome(table).invalidFile == Some(seq(|table|, i requires 0 <= i < |table| => Marked(table[i])))
    ensures Outcome(table).alert == Some(Alert(|table|, 0, |table|))
    ensures Outcome(table).exitCode == 1
  {
    OutcomeGates(table);
    EveryRowRejected(table);
    PartitionSizes(table);
  }

  lemma {:induction false} EveryRowRejected(table: seq<Row>)
    requires forall i :: 0 <= i < |table| ==> !Accepts(table[i])
    ensures RejectedRows(table) == table
  {
    if table != [] {
      var n := |table| - 1;
      EveryRowRejected(table[..n]);
      assert table[..n] + [table[n]] == table;
    }
  }
}
